=== FILE: README.md ===
# DailyMuse social graph and posts, modelled in Dafny

DailyMuse lets users answer a daily AI-generated prompt with one image post per day. They can follow other users and like posts. This project models the part of the code with real rules:

- the `followUser` endpoint, which keeps the follower/following edge in two documents of a path-keyed store (`friends/<id>`);
- the `addPost` endpoint, which upserts `posts/<owner>/<dateKey>`;
- the `userLikesPost` query;
- the `<year>_<month>_<day>` daily post key;
- the client hooks' loading/success state machines and response normalisation;
- the parser that turns the chat model's numbered list into prompts.

The store is two maps: `friends` (user id to `FriendDoc`) and `posts` (owner id and date key to `PostDoc`). The store drops empty arrays, so the lists in both documents may be missing (`Option`).

Module layout (one file each):

- `Values`: `Option` and JavaScript falsiness of an optional string.
- `Envelope`: the response envelope `{success, error{code,message,param,type}}` and `generateError`. `generateDbResponse` is the `DbResponse` constructor.
- `Documents`: the store documents and the user record (`types/FirebaseResponseTypes.ts`).
- `FollowUser`: the `followUser` handler as a `FriendStore` class over the friends map. It also holds the mutual-consistency invariant `Mutual` ("B is in A's following exactly when A is in B's followers") and the lemmas about it.
- `AddPost`: the `addPost` handler as a `PostStore` class over the posts map, and the upsert laws.
- `UserLikes`: `userLikesPost` as a pure function over the posts map. It returns a value and takes no store to write to.
- `DateKey`: `constructCurrentDateId`, a parser for its keys and the round trip.
- `PostHooks`, `ProfileHooks`: the React hooks as classes. Each async function is split at its `await` into `Begin`, which runs the guards and says whether a request goes out, and `Finish`, which takes the response. Each `useState` setter is an assignment.
- `GeneratePrompts`: the prompt endpoint's branches, the regular expression `/\d. .+/g` as a left-to-right scanner (`Spans`), and `parseGPTContent`.

Inputs that come from outside the code are parameters:

- the HTTP method (`verb`) and the request body fields;
- the signed-in user's id (`sessionId`);
- the calendar date (`year`, `monthIndex`, `day`);
- whether each friend-record lookup reached the store (`userReachable`, `friendReachable`);
- the responses the hooks' requests bring back;
- the upstream chat completion (`Upstream`).

Behaviours of the code that the model keeps as written:

- A like query on a missing post answers status 418 with success false and the error "Post does not exist".
- `likes` is an ordered list that nothing deduplicates.
- `addPost` writes the body it is given without checking its fields.
- A follow to oneself is not refused (see `SelfFollowBreaksMutual`).

## Model

| member | source | states |
|---|---|---|
| `Envelope.GenerateError` | daily-getty/pages/api/database/prompt/gpt/generatePrompts.ts:149-156 | code and message are copied unchanged; an omitted `param` or `type` becomes `''` and a given one is kept (identical copies at followUser.ts:161-168, userLikesPost.ts:133-140, addPost.ts:68-75) |
| `Envelope.MethodNotAllowed` | daily-getty/pages/api/database/profile/followUser.ts:16-25 | the wrong-method answer is status 405, success false, error `{405, 'Invalid request method', '', ''}` |
| `FollowUser.FriendStore.constructor` | daily-getty/pages/api/database/profile/followUser.ts:83 | the store starts with the given friends map |
| `FollowUser.FriendStore.FollowUser` | daily-getty/pages/api/database/profile/followUser.ts:10-96 | non-POST: 405 and the store untouched; if `friend_id` is already in the caller's following or `user_id` already in the target's followers: success false with code -100 'Already following user' and nothing persisted (even though `following` was already pushed in memory); otherwise success true with an empty error and the store equal to `AfterFollow`, that is the two records written in order |
| `FollowUser.FriendStore.LoadFriends` | daily-getty/pages/api/database/profile/followUser.ts:30-43 | the record the handler works on is the stored one (or a fresh one when there is none or the lookup failed) with each missing list read as empty |
| `FollowUser.GetFollowingForUserById` | daily-getty/pages/api/database/profile/followUser.ts:98-120 | a lookup that reaches the store gives the stored record, or nothing when there is none; a lookup that fails gives the fresh record `{id, following: [], followers: []}` of the catch branch |
| `FollowUser.MissingReadsAsEmpty` | daily-getty/pages/api/database/profile/followUser.ts:30-43 | a missing record, a failed lookup, or a record without `followers`/`following` is handled as empty lists (the same defaulting at 57-69; the failed lookup's empty record at 109-117) |
| `FollowUser.FollowWrites` | daily-getty/pages/api/database/profile/followUser.ts:55-86 | for two different users: the caller's stored `following` is the loaded list with `friend_id` appended at the end and its `followers` unchanged; the target's `followers` is the loaded list with `user_id` appended at the end and its `following` unchanged; only keys `user_id` and `friend_id` change |
| `FollowUser.SelfFollowBreaksMutual` | daily-getty/pages/api/database/profile/followUser.ts:85-86 | when `user_id == friend_id` the second write replaces the first: the user ends in its own followers but not in its own following, and the mutual invariant fails |
| `FollowUser.GuardsAgree` | daily-getty/pages/api/database/profile/followUser.ts:45-79 | in a mutually consistent store with reachable lookups, the follow is refused exactly when the first guard fires, and exactly when the second guard's condition holds: the second never fires once the first has passed |
| `FollowUser.ListsAfterFollow` | daily-getty/pages/api/database/profile/followUser.ts:55-86 | for two different users and reachable lookups, every user's lists after the follow: the caller's `following` gains `friend_id` at the end, the target's `followers` gains `user_id` at the end, every other list is as before |
| `FollowUser.FollowPreservesMutual` | daily-getty/pages/api/database/profile/followUser.ts:55-86 | for two different users and reachable lookups, the two writes keep "B in A.following iff A in B.followers" on a store where it held |
| `FollowUser.FollowKeepsDistinct` | daily-getty/pages/api/database/profile/followUser.ts:45-86 | for two different users and reachable lookups, a follow that passed both guards adds no duplicate to a store without duplicates |
| `FollowUser.FollowTwiceRefused` | daily-getty/pages/api/database/profile/followUser.ts:45-55 | after a successful follow between two different users, the same follow is refused by the first guard |
| `FollowUser.FailedLookupDropsFollowers` | daily-getty/pages/api/database/profile/followUser.ts:109-117 | when the caller's lookup fails, its stored record is replaced by one with no followers and only the new followee |
| `AddPost.Upsert` | daily-getty/pages/api/database/addPost.ts:35 | the body is the value at `posts/<userId>/<creationDate>`, replacing any previous value; every other key keeps its value; exactly that key is added |
| `AddPost.PostStore.constructor` | daily-getty/pages/api/database/addPost.ts:32 | the store starts with the given posts map |
| `AddPost.PostStore.AddPost` | daily-getty/pages/api/database/addPost.ts:12-39 | non-PUT: 405, success false and nothing written; PUT: the unvalidated body is upserted at its key, and the answer is success true with an empty error |
| `AddPost.SameDayUpsertKeepsLast` | daily-getty/pages/api/database/addPost.ts:35 | two PUTs with the same `(userId, creationDate)` leave exactly the second body at that key |
| `AddPost.DifferentKeysCommute` | daily-getty/pages/api/database/addPost.ts:35 | PUTs to different keys do not interfere: their order does not matter |
| `UserLikes.UserLikesPost` | daily-getty/pages/api/database/posts/userLikesPost.ts:15-92 | non-POST gives 405; a missing or empty `user_id` or `post_id` gives 418 'No user id or post id'; no post at `posts/<user_id>/<post_id>` gives 418 'Post does not exist'; an existing post gives status 200 with an empty error; `success` is true exactly when the request is valid, the post exists and the session user's id is in its likes (missing likes read as empty); a 200 answer has an empty error |
| `UserLikes.AnswerDependsOnlyOnSession` | daily-getty/pages/api/database/posts/userLikesPost.ts:72-76 | the body `user_id` only selects the owner's post; two session users with the same membership in its likes get the same answer |
| `UserLikes.LikesAfterUpsert` | daily-getty/pages/api/database/posts/userLikesPost.ts:64-76 | a post just written by `addPost` is found; the answer is membership in the body's likes, so a body without `likes` answers false |
| `DateKey.NatToDecimal` | daily-getty/pages/database/posts.ts:418 | the number is written as a non-empty string of decimal digits with no leading zero (the first digit is `0` only for zero) and one digit exactly below ten: no padding |
| `DateKey.ConstructCurrentDateId` | daily-getty/pages/database/posts.ts:412-419 | the key is the year's decimal, `_`, the unpadded decimal of `getMonth()+1`, `_`, the unpadded decimal of the day; the month never starts with `0` and the day does so only when it is zero |
| `DateKey.JanuaryFifthKey` | daily-getty/pages/database/posts.ts:412-419 | the fifth of January 2024 (`getMonth()` 0) is keyed `2024_1_5`, not `2024_01_05` |
| `DateKey.SplitKey` | daily-getty/pages/database/posts.ts:418 | the key splits at its underscores into exactly three pieces: the year, month and day decimals, since none of them contains an underscore |
| `DateKey.DateKeyRoundTrip` | daily-getty/pages/database/posts.ts:412-419 | splitting `constructCurrentDateId`'s key at its two underscores and reading the decimals recovers the year, the 1-based month (`getMonth()+1`) and the day |
| `DateKey.DateKeyInjective` | daily-getty/pages/database/posts.ts:12-14 | two dates get the same key exactly when they are the same calendar day: one post per user per day, a later post that day replacing the earlier one |
| `PostHooks.AddPostHook.constructor` | daily-getty/pages/database/posts.ts:24-25 | success and loading start false |
| `PostHooks.AddPostHook.Begin` | daily-getty/pages/database/posts.ts:29-43 | a request is issued exactly when not loading and `user_id`, `created` and `url` are all defined; otherwise success becomes false and loading is unchanged |
| `PostHooks.AddPostHook.Finish` | daily-getty/pages/database/posts.ts:45-49 | after the response, success equals the response's `success` and loading is false |
| `PostHooks.ApplyIdUpdaters` | daily-getty/pages/database/posts.ts:108-110 | the per-post updater ignores its argument: with n >= 1 posts the list is the captured `post_ids` plus the last post's id only; with none it is unchanged |
| `PostHooks.PostIdsHook.constructor` | daily-getty/pages/database/posts.ts:65-67 | the list starts empty and success and loading false |
| `PostHooks.PostIdsHook.Begin` | daily-getty/pages/database/posts.ts:69-85 | when loading or the id is undefined or empty, success becomes false with no request, and the list and the list an in-flight callback closed over are kept; otherwise loading starts, success is reset and the list is cleared, while the callback keeps the old list |
| `PostHooks.PostIdsHook.Finish` | daily-getty/pages/database/posts.ts:97-116 | success is true exactly for a successful response with `posts`; a failed response, a missing `posts` (the thrown `forEach`) or a transport error leaves the list alone; loading ends |
| `PostHooks.PostHook.constructor` | daily-getty/pages/database/posts.ts:133-135 | the post starts as the empty object, success and loading false |
| `PostHooks.PostHook.Begin` | daily-getty/pages/database/posts.ts:137-154 | an undefined or empty `user_id`/`post_id`, or loading, gives success false and no request; otherwise loading starts with success false; the post is untouched |
| `PostHooks.PostHook.Finish` | daily-getty/pages/database/posts.ts:156-163 | success equals the response's; the post is replaced only when the response succeeds; loading ends |
| `PostHooks.LikeHook.constructor` | daily-getty/pages/database/posts.ts:173-174 | success and loading start false |
| `PostHooks.LikeHook.Begin` | daily-getty/pages/database/posts.ts:176-189 | when loading or a user or post id is falsy, success becomes false and no request is made; otherwise the like or unlike request carries the hook's ids and success is false while loading |
| `PostHooks.LikeHook.Finish` | daily-getty/pages/database/posts.ts:191-194 | success equals the response's `success`; loading ends |
| `PostHooks.UserLikesImage` | daily-getty/pages/database/posts.ts:235-265 | `useUserLikesImage(user_id, post_id, owner_id)` builds a fresh hook holding exactly those three ids, idle and unsuccessful, whose requests go to the unlike endpoint as `useUnlikeImage`'s do |
| `ProfileHooks.RequestFriendsForUser` | daily-getty/pages/database/profile.ts:171-196 | in a returned response the missing `followers`/`following` become `[]` and `success` is kept; a transport failure or a response without `friends` yields `{success: false}` |
| `ProfileHooks.RequestFollowingForUser` | daily-getty/pages/database/profile.ts:158-169 | `[]` when the response is unsuccessful or has no `friends`, otherwise `friends.following` (with a missing list read as empty) |
| `ProfileHooks.FollowersAfter` | daily-getty/pages/database/profile.ts:63-72 | the `else` binds to the inner `if`: success with followers sets them; success with friends but no followers sets `[]`; success without friends leaves the list unchanged; failure sets `[]` |
| `ProfileHooks.FollowersAfterFetchIsNeverStale` | daily-getty/pages/database/profile.ts:61-72 | behind `requestFriendsForUser` the unchanged-list case cannot arise: the list becomes the fetched followers of a successful response, and `[]` otherwise |
| `ProfileHooks.FollowingHook.constructor` | daily-getty/pages/database/profile.ts:18-19 | `following` starts as `[]` and loading false |
| `ProfileHooks.FollowingHook.Begin` | daily-getty/pages/database/profile.ts:21-29 | when loading or `user_id` is undefined it returns with no request; `following` stays `[]` |
| `ProfileHooks.FollowingHook.Finish` | daily-getty/pages/database/profile.ts:31-34 | the response is dropped: `following` stays the initial `[]`; loading ends |
| `ProfileHooks.FollowersHook.constructor` | daily-getty/pages/database/profile.ts:48-49 | followers start as `[]` and loading false |
| `ProfileHooks.FollowersHook.Begin` | daily-getty/pages/database/profile.ts:51-59 | when loading or `user_id` is undefined it returns with no request and nothing changed |
| `ProfileHooks.FollowersHook.Finish` | daily-getty/pages/database/profile.ts:61-74 | the list becomes `FollowersAfter(response, old list)`; loading ends |
| `ProfileHooks.FollowHook.constructor` | daily-getty/pages/database/profile.ts:90-91 | success and loading start false |
| `ProfileHooks.FollowHook.Begin` | daily-getty/pages/database/profile.ts:93-100 | when loading nothing changes and nothing is sent; otherwise success is false during the request and the follow or unfollow request names both ids (`useUnfollowUser` at 117-125 is the same) |
| `ProfileHooks.FollowHook.Finish` | daily-getty/pages/database/profile.ts:102-104 | success equals the response's `success`; loading ends false |
| `ProfileHooks.PullUser` | daily-getty/pages/database/profile.ts:226-250 | the response's user is returned exactly when its `error` field is present (even `{}` is truthy); a missing `error` or any exception gives the empty user |
| `ProfileHooks.PullUserIgnoresSuccess` | daily-getty/pages/database/profile.ts:236-241 | the `success` flag plays no part: a successful response without `error` yields the empty user |
| `GeneratePrompts.LineEnd` | daily-getty/pages/api/database/prompt/gpt/generatePrompts.ts:61 | the greedy `.+` stops at the first line terminator at or after its start, or at the end of the text |
| `GeneratePrompts.Spans` | daily-getty/pages/api/database/prompt/gpt/generatePrompts.ts:61-65 | every span of the global match starts at or after the scan position, is at least four characters long and lies within the text |
| `GeneratePrompts.SpansAreMatches` | daily-getty/pages/api/database/prompt/gpt/generatePrompts.ts:61-65 | every span starts with a digit, one non-line-terminator, a space and a non-line-terminator, and runs to the end of that line |
| `GeneratePrompts.FirstSpanIsLeftmost` | daily-getty/pages/api/database/prompt/gpt/generatePrompts.ts:61-65 | no match starts before the first span; with no spans, no match starts anywhere |
| `GeneratePrompts.SpansDoNotOverlap` | daily-getty/pages/api/database/prompt/gpt/generatePrompts.ts:61-65 | spans are in text order and do not overlap, and no match starts between two consecutive spans |
| `GeneratePrompts.LastSpanIsLast` | daily-getty/pages/api/database/prompt/gpt/generatePrompts.ts:61-65 | no match starts after the last span |
| `GeneratePrompts.NoSpansIffNoMatch` | daily-getty/pages/api/database/prompt/gpt/generatePrompts.ts:61-65 | the global match yields nothing exactly when no match of the pattern starts anywhere in the text |
| `GeneratePrompts.PromptsAreLines` | daily-getty/pages/api/database/prompt/gpt/generatePrompts.ts:61-65 | every prompt is non-empty and contains no line terminator |
| `GeneratePrompts.ParseGPTContent` | daily-getty/pages/api/database/prompt/gpt/generatePrompts.ts:59-68 | parsing fails (`null.forEach` throws) exactly when the text holds no match; otherwise there is one prompt per match, in text order, each the match without its first three characters, non-empty and without line terminators |
| `GeneratePrompts.RequestImageHandler` | daily-getty/pages/api/database/prompt/gpt/generatePrompts.ts:31-57 | non-POST gets 405 with `{success: false, prompts: []}`; an unsuccessful upstream result gives 200 with `{error: true}`; otherwise the handler throws exactly when the content has no match, and answers 200 with the parsed prompts when it has |
| `GeneratePrompts.GenerateImageResponse` | daily-getty/pages/api/database/prompt/gpt/generatePrompts.ts:127-137 | success, amount and image are kept; an omitted error becomes the empty object and a given one is kept |

## Left out

- HTTP and `fetch` plumbing is not modelled: the `request*` functions of `posts.ts` and `profile.ts`, and `requestToGPTAPI`, `addPostApi` and the `pull_user` copy in `generatePrompts.ts`. What they return reaches the model as a parameter: a response, `None` for a thrown exception, or an `Upstream` value.
- `getFollowingForUserById` calls the `getFriends` endpoint, which is not part of this model. It is a map lookup plus a flag for whether the call reached the store.
- `asyncOnValue` is a synchronous map read. It never unsubscribes, and the listener it leaves open is outside the model.
- Concurrency is not modelled. The two `set` calls of `followUser` and the one of `addPost` are not awaited, and concurrent requests can interleave. The model runs the writes in program order, one request at a time, with no partial failure.
- React rendering, effects and batching are not modelled. Setters take effect at once, and the stale closure of `useGetAllPostIds` is the `captured` field.
- Store paths are pairs of segments, one map key per record. Not modelled: an id containing `/`; the conversion of a numeric `creationDate` to a path segment; an empty id or date segment. The store drops empty path segments, so `friends/` names the whole `friends` tree and `posts/<userId>/` a user's whole post list. A follow with an empty `id` or `friend_id`, or an `addPost` with an empty `creationDate`, would replace that whole tree. The model instead writes one record under the empty key, so `FollowWrites` and `Upsert` promise that only the named key changes.
- Request-body fields of `followUser` are strings. An `undefined` `id` or `friend_id`, which the source would turn into the path `friends/undefined`, is not modelled.
- In `userLikesPost`, a missing session (`session.user` of null throws) is not modelled. The session user's id is a parameter.
- The clock is not read: the date key takes the local date as parameters instead of reading the clock and time zone. The string order of the keys is not modelled (`"2_10"` sorts before `"2_2"`).
- The redundant second guard of `useLikeImage`, `useUnlikeImage` and `useUserLikesImage` (`user_id === ''`) is not modelled: the first guard's falsiness test already covers it.
- `generatePrompts.ts` also has a `pull_user` whose `resolve` is called twice. Like the other fetch helpers, it is not modelled.
- These are not part of this model because their code is not shown here: the endpoints `createPost`, `unfollowUser`, `likePost`, `unlikePost`, `getFriends`, `getAllPostsFromUser`, `getPostFromUser` and `getUserAccount`.
- `getHomefeed.ts` is not modelled: it only forwards the session user's id to another endpoint.
- The UI components are not modelled: `profileheader.tsx`, `uploadform.tsx`, `prompt.tsx`.
- Logging (`console.log`, `console.error`) and the `DoNothing` default exports are not modelled.
- `\d` is ASCII `0`-`9`, as in JavaScript; other Unicode digits are not matched.
- ParseGPTContent: the text is a sequence of Unicode scalar values, while the source's regular expression (no `u` flag) and `substring(3)` work on UTF-16 code units. They differ on text outside the Basic Multilingual Plane: for `"1😀 ab"` JavaScript's `.` takes only the high surrogate, the space test then fails, `match` returns null and `forEach` throws; the model instead matches at 0 and returns `["ab"]`. Also, `response.choices[0].message.content` (generatePrompts.ts:51) throws on a successful upstream response with no choices. `Upstream` cannot express that case: a successful upstream always carries content.
- `addPost` bodies always carry a string `userId` and a string `creationDate`. A body without `userId`, which the source would write to `posts/undefined/<creationDate>`, is not modelled. Neither is one without `creationDate`, which it would write to `posts/<userId>/undefined`.

=== FILE: add_post.dfy ===
/**
 * The `addPost` handler over the `posts/<owner>/<dateKey>` part of the store:
 * a PUT writes the request body at the key it names, replacing what was there.
 */
module AddPost {
  import opened Envelope
  import opened Documents

  /** The post documents, keyed by owner id and date key. */
  type PostsTable = map<PostKey, PostDoc>

  /** The path `posts/<userId>/<creationDate>` the body is written to. */
  function KeyOf(body: PostDoc): PostKey {
    (body.userId, body.creationDate)
  }

  /**
   * A whole-document upsert: the body becomes the value at its key and every
   * other key keeps its value.
   */
  function Upsert(posts: PostsTable, body: PostDoc): (r: PostsTable)
    ensures KeyOf(body) in r && r[KeyOf(body)] == body
    ensures r.Keys == posts.Keys + {KeyOf(body)}
    ensures forall k :: k in posts && k != KeyOf(body) ==> r[k] == posts[k]
  {
    posts[KeyOf(body) := body]
  }

  class PostStore {
    var posts: PostsTable

    constructor (initial: PostsTable)
      ensures posts == initial
    {
      posts := initial;
    }

    /**
     * `addPost(req, res)` with `req.body == body`. Anything but PUT is refused
     * with 405 and writes nothing; a PUT is not validated, always writes and
     * always answers success with an empty error.
     */
    method AddPost(verb: string, body: PostDoc) returns (reply: Reply)
      modifies this
      ensures verb != "PUT" ==> reply == MethodNotAllowed() && posts == old(posts)
      ensures verb == "PUT" ==> reply == Answer(true) && posts == Upsert(old(posts), body)
    {
      if verb != "PUT" {
        return MethodNotAllowed();
      }
      posts := posts[(body.userId, body.creationDate) := body];
      reply := Answer(true);
    }
  }

  /**
   * Last writer wins per key: two PUTs naming the same owner and date leave
   * exactly the second body there, and nothing of the first.
   */
  lemma SameDayUpsertKeepsLast(posts: PostsTable, first: PostDoc, second: PostDoc)
    requires KeyOf(first) == KeyOf(second)
    ensures Upsert(Upsert(posts, first), second) == Upsert(posts, second)
  {
  }

  /** PUTs to different keys commute: their order does not matter. */
  lemma DifferentKeysCommute(posts: PostsTable, first: PostDoc, second: PostDoc)
    requires KeyOf(first) != KeyOf(second)
    ensures Upsert(Upsert(posts, first), second) == Upsert(Upsert(posts, second), first)
  {
  }
}

=== FILE: date_key.dfy ===
/**
 * `constructCurrentDateId`: the `<year>_<month>_<day>` key under which a
 * user's post of the day is stored. Numbers are written in decimal without
 * padding, the month 1-based. The clock is a parameter: `year`, the
 * 0-based `monthIndex` that `getMonth()` gives and the day of the month.
 */
module DateKey {
  import opened Values

  function DigitChar(d: nat): (c: char)
    requires d < 10
    ensures IsDigit(c) && c as int - '0' as int == d
  {
    (d + '0' as int) as char
  }

  /**
   * JavaScript's `String(n)` for a non-negative integer: the shortest
   * decimal, so no leading zero except in `"0"` itself.
   */
  function NatToDecimal(n: nat): (s: string)
    ensures |s| >= 1
    ensures forall i :: 0 <= i < |s| ==> IsDigit(s[i])
    ensures s[0] == '0' <==> n == 0
    ensures n < 10 <==> |s| == 1
    decreases n
  {
    if n < 10 then [DigitChar(n)] else NatToDecimal(n / 10) + [DigitChar(n % 10)]
  }

  /** `String(n)` for any integer: a minus sign before the magnitude. */
  function IntToDecimal(n: int): string {
    if n < 0 then "-" + NatToDecimal(-n) else NatToDecimal(n)
  }

  /**
   * `year + "_" + (monthIndex + 1) + "_" + day`: the key opens with the year
   * and an underscore, ends with an underscore and the day, and the month in
   * between is written without padding.
   */
  function ConstructCurrentDateId(year: int, monthIndex: nat, day: nat): (key: string)
    ensures var y, m, d := IntToDecimal(year), NatToDecimal(monthIndex + 1), NatToDecimal(day);
      && |key| == |y| + 1 + |m| + 1 + |d|
      && key[..|y| + 1] == y + "_"
      && key[|y| + 1..|y| + 1 + |m|] == m
      && key[|y| + 1 + |m|..] == "_" + d
      && m[0] != '0' && (d[0] == '0' ==> d == "0")
  {
    var y, m, d := IntToDecimal(year), NatToDecimal(monthIndex + 1), NatToDecimal(day);
    var key := (y + "_") + (m + ("_" + d));
    assert key[..|y| + 1] == y + "_";
    assert key[|y| + 1..|y| + 1 + |m|] == m;
    assert key[|y| + 1 + |m|..] == "_" + d;
    key
  }

  // ---- reading a key back ----

  /** The pieces of `s` between occurrences of `sep`, like `s.split(sep)`. */
  function Split(s: string, sep: char): (parts: seq<string>)
    ensures |parts| >= 1
    decreases |s|
  {
    if |s| == 0 then [""]
    else if s[0] == sep then [""] + Split(s[1..], sep)
    else
      var rest := Split(s[1..], sep);
      [[s[0]] + rest[0]] + rest[1..]
  }

  function DecimalValue(s: string): nat
    requires forall i :: 0 <= i < |s| ==> IsDigit(s[i])
    decreases |s|
  {
    if |s| == 0 then 0
    else
      assert IsDigit(s[|s| - 1]);
      DecimalValue(s[..|s| - 1]) * 10 + (s[|s| - 1] as int - '0' as int)
  }

  function ParseNat(s: string): Option<nat> {
    if |s| > 0 && forall i :: 0 <= i < |s| ==> IsDigit(s[i]) then Some(DecimalValue(s)) else None
  }

  function ParseInt(s: string): Option<int> {
    if |s| > 0 && s[0] == '-' then
      match ParseNat(s[1..])
      case Some(n) => Some(-(n as int))
      case None => None
    else
      match ParseNat(s)
      case Some(n) => Some(n)
      case None => None
  }

  /** Splits a key at its underscores into year, 1-based month and day. */
  function ParseDateKey(key: string): Option<(int, nat, nat)> {
    var parts := Split(key, '_');
    if |parts| != 3 then None
    else
      match (ParseInt(parts[0]), ParseNat(parts[1]), ParseNat(parts[2]))
      case (Some(y), Some(m), Some(d)) => Some((y, m, d))
      case _ => None
  }

  // ---- lemmas ----

  lemma {:induction false} SplitWithoutSep(a: string, sep: char)
    requires sep !in a
    ensures Split(a, sep) == [a]
    decreases |a|
  {
    if |a| > 0 {
      SplitWithoutSep(a[1..], sep);
      assert [a[0]] + a[1..] == a;
    }
  }

  lemma {:induction false} SplitAtFirstSep(a: string, sep: char, b: string)
    requires sep !in a
    ensures Split(a + [sep] + b, sep) == [a] + Split(b, sep)
    decreases |a|
  {
    var s := a + [sep] + b;
    if |a| == 0 {
      assert s[1..] == b;
    } else {
      assert s[1..] == a[1..] + [sep] + b;
      SplitAtFirstSep(a[1..], sep, b);
      assert [a[0]] + a[1..] == a;
    }
  }

  lemma {:induction false} DecimalRoundTrip(n: nat)
    ensures DecimalValue(NatToDecimal(n)) == n
    decreases n
  {
    var s := NatToDecimal(n);
    if n >= 10 {
      DecimalRoundTrip(n / 10);
      assert s[..|s| - 1] == NatToDecimal(n / 10);
    }
  }

  lemma ParseNatRoundTrip(n: nat)
    ensures ParseNat(NatToDecimal(n)) == Some(n)
    ensures '_' !in NatToDecimal(n) && '-' !in NatToDecimal(n)
  {
    DecimalRoundTrip(n);
  }

  lemma ParseIntRoundTrip(n: int)
    ensures ParseInt(IntToDecimal(n)) == Some(n)
    ensures '_' !in IntToDecimal(n)
  {
    if n < 0 {
      var d := NatToDecimal(-n);
      ParseNatRoundTrip(-n);
      assert IntToDecimal(n) == "-" + d;
      assert ("-" + d)[1..] == d;
      assert ParseInt("-" + d) == Some(-((-n) as int));
    } else {
      var d := NatToDecimal(n);
      ParseNatRoundTrip(n);
      assert IntToDecimal(n) == d;
      assert d[0] != '-' by {
        assert IsDigit(d[0]);
      }
    }
  }

  /** The key splits at its underscores into the three decimals it was built from. */
  lemma {:induction false} SplitKey(year: int, monthIndex: nat, day: nat)
    ensures Split(ConstructCurrentDateId(year, monthIndex, day), '_')
            == [IntToDecimal(year), NatToDecimal(monthIndex + 1), NatToDecimal(day)]
  {
    var y, m, d := IntToDecimal(year), NatToDecimal(monthIndex + 1), NatToDecimal(day);
    assert '_' !in y by {
      ParseIntRoundTrip(year);
    }
    assert '_' !in m && '_' !in d by {
      ParseNatRoundTrip(monthIndex + 1);
      ParseNatRoundTrip(day);
    }
    assert ConstructCurrentDateId(year, monthIndex, day) == y + ['_'] + (m + ['_'] + d);
    SplitAtFirstSep(y, '_', m + ['_'] + d);
    SplitAtFirstSep(m, '_', d);
    SplitWithoutSep(d, '_');
  }

  /**
   * Splitting a date key at its two underscores recovers the year, the
   * 1-based month and the day it was built from.
   */
  lemma {:induction false} DateKeyRoundTrip(year: int, monthIndex: nat, day: nat)
    ensures ParseDateKey(ConstructCurrentDateId(year, monthIndex, day)) == Some((year, monthIndex + 1, day))
  {
    SplitKey(year, monthIndex, day);
    ParseIntRoundTrip(year);
    ParseNatRoundTrip(monthIndex + 1);
    ParseNatRoundTrip(day);
  }

  /** The fifth of January 2024 is keyed `2024_1_5`: month and day are not padded. */
  lemma JanuaryFifthKey()
    ensures ConstructCurrentDateId(2024, 0, 5) == "2024_1_5"
  {
    assert NatToDecimal(2024) == NatToDecimal(202) + ['4'];
    assert NatToDecimal(202) == NatToDecimal(20) + ['2'];
    assert NatToDecimal(20) == NatToDecimal(2) + ['0'];
  }

  /**
   * Distinct calendar days get distinct keys, and the same day always the
   * same key: one post per user per day, a later post of the day replacing
   * the earlier one.
   */
  lemma DateKeyInjective(y1: int, m1: nat, d1: nat, y2: int, m2: nat, d2: nat)
    ensures ConstructCurrentDateId(y1, m1, d1) == ConstructCurrentDateId(y2, m2, d2)
            <==> y1 == y2 && m1 == m2 && d1 == d2
  {
    DateKeyRoundTrip(y1, m1, d1);
    DateKeyRoundTrip(y2, m2, d2);
  }
}

=== FILE: documents.dfy ===
/**
 * The documents kept in the path-addressed store (`friends/<id>`,
 * `posts/<owner>/<dateKey>`) and the user record, as plain values.
 */
module Documents {
  import opened Values

  /**
   * `DatabaseFriends` as read back from `friends/<id>`. The store drops empty
   * arrays, so either list may be missing.
   */
  datatype FriendDoc = FriendDoc(id: string, followers: Option<seq<string>>, following: Option<seq<string>>)

  datatype Comment = Comment(time: string, userId: string, username: string, comment: string)

  datatype Image = Image(created: int, url: string)

  /**
   * A post document: the upload body's key fields `userId` and `creationDate`
   * together with the fields of `DatabasePost`. `likes` may be missing.
   */
  datatype PostDoc = PostDoc(
    id: string,
    userId: string,
    creationDate: string,
    userPrompt: string,
    givenPrompt: string,
    likes: Option<seq<string>>,
    comments: seq<Comment>,
    image: Image)

  /** The two path segments below `posts/`: owner id and date key. */
  type PostKey = (string, string)

  /** `DatabaseUser`; `EmptyUser` is the `{} as DatabaseUser` object. */
  datatype User =
    | EmptyUser
    | User(id: string, name: string, email: string, image: string, googleId: string)
}

=== FILE: envelope.dfy ===
/**
 * The response envelope every database handler answers with:
 * `{success, error: {code, message, param, type}}` and an HTTP status.
 */
module Envelope {
  import opened Values

  /** `DatabaseError`; `EmptyError` is the `{} as DatabaseError` object sent on success. */
  datatype ErrorInfo =
    | EmptyError
    | ErrorInfo(code: int, message: string, param: string, kind: string)

  /** `DatabaseResponse`, built by `generateDbResponse(success, error)`. */
  datatype DbResponse = DbResponse(success: bool, error: ErrorInfo)

  /** What a handler sends: `res.status(status).json(body)`. */
  datatype Reply = Reply(status: int, body: DbResponse)

  /**
   * `generateError(code, message, param = '', type = '')`: an omitted optional
   * argument becomes the empty string; given arguments are copied unchanged.
   */
  function GenerateError(code: int, message: string, param: Option<string>, kind: Option<string>): (e: ErrorInfo)
    ensures e.ErrorInfo? && e.code == code && e.message == message
    ensures param.None? ==> e.param == ""
    ensures param.Some? ==> e.param == param.value
    ensures kind.None? ==> e.kind == ""
    ensures kind.Some? ==> e.kind == kind.value
  {
    ErrorInfo(code, message, param.GetOr(""), kind.GetOr(""))
  }

  /** The answer to a request with the wrong HTTP method. */
  function MethodNotAllowed(): (r: Reply)
    ensures r.status == 405 && !r.body.success
    ensures r.body.error == ErrorInfo(405, "Invalid request method", "", "")
  {
    Reply(405, DbResponse(false, GenerateError(405, "Invalid request method", None, None)))
  }

  /** `status(200)` with `generateDbResponse(success, {})`. */
  function Answer(success: bool): Reply {
    Reply(200, DbResponse(success, EmptyError))
  }
}

=== FILE: follow_user.dfy ===
/**
 * The `followUser` handler over the `friends/<id>` part of the store:
 * method check, defaulting of the two friend records, the two duplicate
 * guards and the two sequential writes.
 */
module FollowUser {
  import opened Values
  import opened Envelope
  import opened Documents

  /** The `friends/<id>` documents, keyed by user id. */
  type FriendsTable = map<string, FriendDoc>

  /** A friend record after the handler's defaulting: both lists present. */
  datatype Friends = Friends(id: string, followers: seq<string>, following: seq<string>)

  function AlreadyFollowing(): Reply {
    Reply(200, DbResponse(false, GenerateError(-100, "Already following user", None, None)))
  }

  /**
   * `getFollowingForUserById`: the stored record, or nothing when there is
   * none; when the lookup itself fails (`reachable` is false) the catch branch
   * answers a fresh record with two empty lists.
   */
  function GetFollowingForUserById(table: FriendsTable, id: string, reachable: bool): (r: Option<FriendDoc>)
    ensures !reachable ==> r == Some(FriendDoc(id, Some([]), Some([])))
    ensures reachable ==> (r.Some? <==> id in table)
    ensures reachable && id in table ==> r.value == table[id]
  {
    if !reachable then Some(FriendDoc(id, Some([]), Some([])))
    else if id in table then Some(table[id])
    else None
  }

  /** The defaulting the handler applies to a looked-up record. */
  function Normalize(id: string, r: Option<FriendDoc>): Friends {
    match r
    case None => Friends(id, [], [])
    case Some(doc) => Friends(doc.id, doc.followers.GetOr([]), doc.following.GetOr([]))
  }

  function ToDoc(f: Friends): FriendDoc {
    FriendDoc(f.id, Some(f.followers), Some(f.following))
  }

  /** The record the handler works on for `id`, read from `table`. */
  function Loaded(table: FriendsTable, id: string, reachable: bool): Friends {
    Normalize(id, GetFollowingForUserById(table, id, reachable))
  }

  /** The lists of `id` as the store holds them, missing ones read as empty. */
  function Following(table: FriendsTable, id: string): seq<string> {
    Loaded(table, id, true).following
  }

  function Followers(table: FriendsTable, id: string): seq<string> {
    Loaded(table, id, true).followers
  }

  /** The edge `a -> b` is recorded on both sides or on neither. */
  ghost predicate Mutual(table: FriendsTable) {
    forall a, b :: b in Following(table, a) <==> a in Followers(table, b)
  }

  ghost predicate Distinct(s: seq<string>) {
    forall i, j :: 0 <= i < j < |s| ==> s[i] != s[j]
  }

  ghost predicate NoDuplicates(table: FriendsTable) {
    forall a :: Distinct(Following(table, a)) && Distinct(Followers(table, a))
  }

  /** The duplicate guards of the handler, in their order. */
  predicate Refused(table: FriendsTable, userId: string, friendId: string, userReachable: bool, friendReachable: bool) {
    friendId in Loaded(table, userId, userReachable).following
    || userId in Loaded(table, friendId, friendReachable).followers
  }

  /**
   * The table after a follow that passed both guards: the caller's record
   * with `friendId` appended to `following` is written first, then the
   * target's record with `userId` appended to `followers`.
   */
  function AfterFollow(table: FriendsTable, userId: string, friendId: string, userReachable: bool, friendReachable: bool): FriendsTable {
    var caller := Loaded(table, userId, userReachable);
    var target := Loaded(table, friendId, friendReachable);
    table[userId := ToDoc(caller.(following := caller.following + [friendId]))]
         [friendId := ToDoc(target.(followers := target.followers + [userId]))]
  }

  class FriendStore {
    var table: FriendsTable

    constructor (initial: FriendsTable)
      ensures table == initial
    {
      table := initial;
    }

    /**
     * `followUser(req, res)` with `req.body.id == userId` and
     * `req.body.friend_id == friendId`; the two reachability flags say whether
     * each of the two lookups reached the store.
     */
    method FollowUser(verb: string, userId: string, friendId: string, userReachable: bool, friendReachable: bool)
      returns (reply: Reply)
      modifies this
      ensures verb != "POST" ==> reply == MethodNotAllowed() && table == old(table)
      ensures verb == "POST" && Refused(old(table), userId, friendId, userReachable, friendReachable) ==>
                reply == AlreadyFollowing() && table == old(table)
      ensures verb == "POST" && !Refused(old(table), userId, friendId, userReachable, friendReachable) ==>
                reply == Answer(true) && table == AfterFollow(old(table), userId, friendId, userReachable, friendReachable)
    {
      if verb != "POST" {
        return MethodNotAllowed();
      }

      var friendsObj := LoadFriends(userId, userReachable);
      if friendId in friendsObj.following.value {
        return AlreadyFollowing();
      }
      friendsObj := friendsObj.(following := Some(friendsObj.following.value + [friendId]));

      var newFriendsObj := LoadFriends(friendId, friendReachable);
      if userId in newFriendsObj.followers.value {
        return AlreadyFollowing();
      }
      newFriendsObj := newFriendsObj.(followers := Some(newFriendsObj.followers.value + [userId]));

      table := table[userId := friendsObj];
      table := table[friendId := newFriendsObj];
      reply := Answer(true);
    }

    /**
     * The lookup-and-default block the handler runs for each of the two ids:
     * the record found (or the fresh one), with each missing list set to empty.
     */
    method LoadFriends(id: string, reachable: bool) returns (doc: FriendDoc)
      ensures doc == ToDoc(Loaded(table, id, reachable))
    {
      doc := GetFollowingForUserById(table, id, reachable).GetOr(FriendDoc(id, Some([]), Some([])));
      if doc.followers.None? {
        doc := doc.(followers := Some([]));
      }
      if doc.following.None? {
        doc := doc.(following := Some([]));
      }
    }
  }

  /** A missing record, a record without lists and a failed lookup all read as empty lists. */
  lemma MissingReadsAsEmpty(table: FriendsTable, id: string, reachable: bool)
    ensures !reachable || id !in table ==> Loaded(table, id, reachable) == Friends(id, [], [])
    ensures reachable && id in table && table[id].followers.None? ==> Loaded(table, id, reachable).followers == []
    ensures reachable && id in table && table[id].following.None? ==> Loaded(table, id, reachable).following == []
  {
  }

  /**
   * After a successful follow between two different users the caller's
   * `following` gained `friendId` at the end, the target's `followers` gained
   * `userId` at the end, the other two lists are as loaded, and no other key
   * changed.
   */
  lemma FollowWrites(table: FriendsTable, userId: string, friendId: string, userReachable: bool, friendReachable: bool)
    requires userId != friendId
    ensures var after := AfterFollow(table, userId, friendId, userReachable, friendReachable);
      && Following(after, userId) == Loaded(table, userId, userReachable).following + [friendId]
      && Followers(after, userId) == Loaded(table, userId, userReachable).followers
      && Followers(after, friendId) == Loaded(table, friendId, friendReachable).followers + [userId]
      && Following(after, friendId) == Loaded(table, friendId, friendReachable).following
      && after.Keys == table.Keys + {userId, friendId}
      && forall k :: k in table && k != userId && k != friendId ==> after[k] == table[k]
  {
  }

  /**
   * Following oneself: the second write replaces the first, so the record
   * ends with the user among its own followers but not in its own
   * `following`, and the mutual-consistency invariant no longer holds.
   */
  lemma SelfFollowBreaksMutual(table: FriendsTable, userId: string)
    requires !Refused(table, userId, userId, true, true)
    ensures var after := AfterFollow(table, userId, userId, true, true);
      && userId in Followers(after, userId)
      && userId !in Following(after, userId)
      && !Mutual(after)
  {
  }

  /** While the store is mutually consistent the handler's two guards agree. */
  lemma GuardsAgree(table: FriendsTable, userId: string, friendId: string)
    requires Mutual(table)
    ensures Refused(table, userId, friendId, true, true) <==> friendId in Loaded(table, userId, true).following
    ensures Refused(table, userId, friendId, true, true) <==> userId in Loaded(table, friendId, true).followers
  {
    assert friendId in Following(table, userId) <==> userId in Followers(table, friendId);
  }

  lemma AppendDistinct(s: seq<string>, x: string)
    requires Distinct(s) && x !in s
    ensures Distinct(s + [x])
  {
  }

  /**
   * Every user's lists after a follow between two different users, both
   * lookups reaching the store: only the caller's `following` and the
   * target's `followers` change, each by one id at the end.
   */
  lemma ListsAfterFollow(table: FriendsTable, userId: string, friendId: string, a: string)
    requires userId != friendId
    ensures var after := AfterFollow(table, userId, friendId, true, true);
      && Following(after, a) == (if a == userId then Following(table, a) + [friendId] else Following(table, a))
      && Followers(after, a) == (if a == friendId then Followers(table, a) + [userId] else Followers(table, a))
  {
    FollowWrites(table, userId, friendId, true, true);
  }

  /**
   * Between two different users, with both lookups reaching the store, the
   * two writes of a follow keep the store mutually consistent.
   */
  lemma {:induction false} FollowPreservesMutual(table: FriendsTable, userId: string, friendId: string)
    requires userId != friendId
    requires Mutual(table)
    ensures Mutual(AfterFollow(table, userId, friendId, true, true))
  {
    var after := AfterFollow(table, userId, friendId, true, true);
    forall a, b
      ensures b in Following(after, a) <==> a in Followers(after, b)
    {
      ListsAfterFollow(table, userId, friendId, a);
      ListsAfterFollow(table, userId, friendId, b);
      assert b in Following(table, a) <==> a in Followers(table, b);
    }
  }

  /**
   * Under the same conditions, and when the store held no duplicates, the
   * follow adds none: the guards keep the appended id out of both lists.
   */
  lemma {:induction false} FollowKeepsDistinct(table: FriendsTable, userId: string, friendId: string)
    requires userId != friendId
    requires NoDuplicates(table)
    requires !Refused(table, userId, friendId, true, true)
    ensures NoDuplicates(AfterFollow(table, userId, friendId, true, true))
  {
    var after := AfterFollow(table, userId, friendId, true, true);
    forall a
      ensures Distinct(Following(after, a)) && Distinct(Followers(after, a))
    {
      ListsAfterFollow(table, userId, friendId, a);
      assert Distinct(Following(table, a)) && Distinct(Followers(table, a));
      if a == userId {
        AppendDistinct(Following(table, a), friendId);
      } else if a == friendId {
        AppendDistinct(Followers(table, a), userId);
      }
    }
  }

  /**
   * Following twice: once a follow between two different users succeeded, the
   * same request is refused by the first guard and the store stays as the
   * first call left it.
   */
  lemma FollowTwiceRefused(table: FriendsTable, userId: string, friendId: string, userReachable: bool, friendReachable: bool)
    requires userId != friendId
    requires !Refused(table, userId, friendId, userReachable, friendReachable)
    ensures var after := AfterFollow(table, userId, friendId, userReachable, friendReachable);
      friendId in Loaded(after, userId, true).following && Refused(after, userId, friendId, true, true)
  {
  }

  /**
   * A failed lookup of the caller is treated like a missing record: a
   * successful follow then overwrites the caller's stored followers with an
   * empty list.
   */
  lemma FailedLookupDropsFollowers(table: FriendsTable, userId: string, friendId: string, friendReachable: bool)
    requires userId != friendId
    ensures Followers(AfterFollow(table, userId, friendId, false, friendReachable), userId) == []
    ensures Following(AfterFollow(table, userId, friendId, false, friendReachable), userId) == [friendId]
  {
  }
}

=== FILE: generate_prompts.dfy ===
/**
 * The prompt-generation endpoint: the branch on method and upstream result,
 * and `parseGPTContent`, which collects the global matches of `/\d. .+/` in
 * the upstream text and drops the first three characters of each.
 */
module GeneratePrompts {
  import opened Values
  import opened Envelope

  // ---- the regular expression /\d. .+/g ----

  /** The characters `.` does not match: line feed, carriage return, U+2028, U+2029. */
  predicate IsLineTerminator(c: char) {
    c == '\n' || c == '\r' || c == '\U{2028}' || c == '\U{2029}'
  }

  /** A match of `\d. .` begins at `i`: a digit, any non-terminator, a space, and at least one non-terminator. */
  predicate MatchStartsAt(s: string, i: nat) {
    i + 3 < |s| && IsDigit(s[i]) && !IsLineTerminator(s[i + 1]) && s[i + 2] == ' ' && !IsLineTerminator(s[i + 3])
  }

  /** Where the greedy `.+` that starts at `k` stops: the next line terminator, or the end. */
  function LineEnd(s: string, k: nat): (e: nat)
    requires k <= |s|
    ensures k <= e <= |s|
    ensures forall j :: k <= j < e ==> !IsLineTerminator(s[j])
    ensures e < |s| ==> IsLineTerminator(s[e])
    decreases |s| - k
  {
    if k == |s| || IsLineTerminator(s[k]) then k else LineEnd(s, k + 1)
  }

  /** `[start, end)` is a whole match: `\d. ` followed by the longest run of `.`. */
  predicate IsSpan(s: string, span: (nat, nat)) {
    && MatchStartsAt(s, span.0)
    && span.0 + 4 <= span.1 <= |s|
    && span.1 == LineEnd(s, span.0 + 3)
  }

  /**
   * The spans `[start, end)` of the global match: scanning from `i`, a match
   * is taken where one starts and the scan resumes at its end; elsewhere the
   * scan moves on by one character.
   */
  function Spans(s: string, i: nat): (r: seq<(nat, nat)>)
    requires i <= |s|
    ensures forall k :: 0 <= k < |r| ==> i <= r[k].0 && r[k].0 + 4 <= r[k].1 <= |s|
    decreases |s| - i
  {
    if i + 3 >= |s| then []
    else if MatchStartsAt(s, i) then [(i, LineEnd(s, i + 3))] + Spans(s, LineEnd(s, i + 3))
    else Spans(s, i + 1)
  }

  /** Every span the scan records is a whole match. */
  lemma {:induction false} SpansAreMatches(s: string, i: nat)
    requires i <= |s|
    ensures forall k :: 0 <= k < |Spans(s, i)| ==> IsSpan(s, Spans(s, i)[k])
    decreases |s| - i
  {
    if i + 3 >= |s| {
    } else if MatchStartsAt(s, i) {
      var e := LineEnd(s, i + 3);
      SpansAreMatches(s, e);
      assert Spans(s, i) == [(i, e)] + Spans(s, e);
    } else {
      SpansAreMatches(s, i + 1);
    }
  }

  /** No match starts at any position in `[lo, hi)`. */
  ghost predicate NoMatchBetween(s: string, lo: nat, hi: nat) {
    forall p :: lo <= p < hi ==> !MatchStartsAt(s, p)
  }

  /** Scanning from `i`, no match starts before the first span (or anywhere, when there is none). */
  lemma {:induction false} FirstSpanIsLeftmost(s: string, i: nat)
    requires i <= |s|
    ensures |Spans(s, i)| == 0 ==> NoMatchBetween(s, i, |s|)
    ensures |Spans(s, i)| > 0 ==> NoMatchBetween(s, i, Spans(s, i)[0].0)
    decreases |s| - i
  {
    if i + 3 >= |s| {
    } else if MatchStartsAt(s, i) {
    } else {
      FirstSpanIsLeftmost(s, i + 1);
    }
  }

  /** Each span ends at or before the next one starts, and no match starts in between. */
  ghost predicate Gapless(s: string, r: seq<(nat, nat)>) {
    forall k :: 0 <= k < |r| - 1 ==> r[k].1 <= r[k + 1].0 && NoMatchBetween(s, r[k].1, r[k + 1].0)
  }

  lemma GaplessCons(s: string, first: (nat, nat), rest: seq<(nat, nat)>)
    requires Gapless(s, rest)
    requires |rest| > 0 ==> first.1 <= rest[0].0 && NoMatchBetween(s, first.1, rest[0].0)
    ensures Gapless(s, [first] + rest)
  {
  }

  lemma {:induction false} SpansDoNotOverlap(s: string, i: nat)
    requires i <= |s|
    ensures Gapless(s, Spans(s, i))
    decreases |s| - i
  {
    if i + 3 >= |s| {
    } else if MatchStartsAt(s, i) {
      var e := LineEnd(s, i + 3);
      SpansDoNotOverlap(s, e);
      FirstSpanIsLeftmost(s, e);
      GaplessCons(s, (i, e), Spans(s, e));
    } else {
      SpansDoNotOverlap(s, i + 1);
    }
  }

  /** After the last span of the scan from `i` no match starts. */
  ghost predicate NothingAfterLastSpan(s: string, i: nat)
    requires i <= |s|
  {
    var r := Spans(s, i);
    |r| > 0 ==> NoMatchBetween(s, r[|r| - 1].1, |s|)
  }

  /** A match taken at `i` keeps the property of the spans found after it. */
  lemma LastSpanAfterMatch(s: string, i: nat)
    requires i + 3 < |s| && MatchStartsAt(s, i)
    requires NothingAfterLastSpan(s, LineEnd(s, i + 3))
    ensures NothingAfterLastSpan(s, i)
  {
    var e := LineEnd(s, i + 3);
    var r, rest := Spans(s, i), Spans(s, e);
    assert r == [(i, e)] + rest;
    if |rest| == 0 {
      FirstSpanIsLeftmost(s, e);
      assert r[|r| - 1] == (i, e);
    } else {
      assert r[|r| - 1] == rest[|rest| - 1];
    }
  }

  /** Moving past a position where no match starts keeps the property. */
  lemma LastSpanAfterSkip(s: string, i: nat)
    requires i + 3 < |s| && !MatchStartsAt(s, i)
    requires NothingAfterLastSpan(s, i + 1)
    ensures NothingAfterLastSpan(s, i)
  {
    assert Spans(s, i) == Spans(s, i + 1);
  }

  /** No match starts after the end of the last span. */
  lemma {:induction false} LastSpanIsLast(s: string, i: nat)
    requires i <= |s|
    ensures NothingAfterLastSpan(s, i)
    decreases |s| - i
  {
    if i + 3 >= |s| {
      assert Spans(s, i) == [];
    } else if MatchStartsAt(s, i) {
      LastSpanIsLast(s, LineEnd(s, i + 3));
      LastSpanAfterMatch(s, i);
    } else {
      LastSpanIsLast(s, i + 1);
      LastSpanAfterSkip(s, i);
    }
  }

  /** `unifiedContent.match(regex)`: the matched texts in order, or null when there is none. */
  function MatchAll(s: string): Option<seq<string>> {
    var r := Spans(s, 0);
    if |r| == 0 then None
    else Some(seq(|r|, k requires 0 <= k < |r| => s[r[k].0 .. r[k].1]))
  }

  /** `prompt.substring(3)`. */
  function Substring3(m: string): string {
    if |m| >= 3 then m[3..] else ""
  }

  /** The text of every prompt: each match with its `<digit><char><space>` prefix removed. */
  function Prompts(s: string): (r: seq<string>) {
    var sp := Spans(s, 0);
    seq(|sp|, k requires 0 <= k < |sp| => s[sp[k].0 + 3 .. sp[k].1])
  }

  /** A line of text: non-empty and without line terminators. */
  ghost predicate IsPromptLine(p: string) {
    |p| > 0 && forall j :: 0 <= j < |p| ==> !IsLineTerminator(p[j])
  }

  /** The global match finds nothing exactly when no match starts anywhere in the text. */
  lemma NoSpansIffNoMatch(s: string)
    ensures |Spans(s, 0)| == 0 <==> NoMatchBetween(s, 0, |s|)
  {
    FirstSpanIsLeftmost(s, 0);
    SpansAreMatches(s, 0);
    var sp := Spans(s, 0);
    if |sp| > 0 {
      assert IsSpan(s, sp[0]);
      assert MatchStartsAt(s, sp[0].0);
    }
  }

  /** Every prompt is a whole line of text: the `.+` of its match is non-empty and stops at a terminator. */
  lemma PromptsAreLines(s: string)
    ensures forall k :: 0 <= k < |Prompts(s)| ==> IsPromptLine(Prompts(s)[k])
  {
    var sp := Spans(s, 0);
    SpansAreMatches(s, 0);
    forall k | 0 <= k < |sp|
      ensures IsPromptLine(Prompts(s)[k])
    {
      assert IsSpan(s, sp[k]);
      assert Prompts(s)[k] == s[sp[k].0 + 3 .. sp[k].1];
    }
  }

  /**
   * `parseGPTContent(content)`: when the text has no match, `match` gives
   * null and the `forEach` throws (here: `None`); otherwise one prompt per
   * match, in text order.
   */
  method ParseGPTContent(content: string) returns (prompts: Option<seq<string>>)
    ensures prompts.None? <==> NoMatchBetween(content, 0, |content|)
    ensures prompts.Some? ==> prompts.value == Prompts(content) && |prompts.value| == |Spans(content, 0)|
    ensures prompts.Some? ==> forall k :: 0 <= k < |prompts.value| ==> IsPromptLine(prompts.value[k])
  {
    NoSpansIffNoMatch(content);
    var matches := MatchAll(content);
    if matches.None? {
      return None;
    }
    var found := matches.value;
    ghost var sp := Spans(content, 0);
    var out: seq<string> := [];
    var k := 0;
    while k < |found|
      invariant 0 <= k <= |found| == |sp|
      invariant |out| == k
      invariant forall j :: 0 <= j < k ==> out[j] == content[sp[j].0 + 3 .. sp[j].1]
    {
      assert found[k] == content[sp[k].0 .. sp[k].1];
      out := out + [Substring3(found[k])];
      k := k + 1;
    }
    assert out == Prompts(content);
    PromptsAreLines(content);
    prompts := Some(out);
  }

  // ---- the handler ----

  /** What `requestToGPTAPI` delivered: a failure, or the first choice's message text. */
  datatype Upstream = UpstreamFailed | UpstreamContent(content: string)

  /** `PromptResponse` bodies: `{success, prompts}` or `{error: true}`. */
  datatype PromptBody = PromptList(success: bool, prompts: seq<string>) | ErrorFlag

  /** The handler either answers or lets the parser's exception escape. */
  datatype Outcome = Responded(status: int, body: PromptBody) | Threw

  /**
   * `request_image_handler(req, res)`: non-POST gets 405 with no prompts; an
   * unsuccessful upstream call gets 200 with `{error: true}`; otherwise the
   * parsed prompts with status 200, unless the parser throws.
   */
  method RequestImageHandler(verb: string, upstream: Upstream) returns (out: Outcome)
    ensures verb != "POST" ==> out == Responded(405, PromptList(false, []))
    ensures verb == "POST" && upstream.UpstreamFailed? ==> out == Responded(200, ErrorFlag)
    ensures verb == "POST" && upstream.UpstreamContent? ==>
              (out.Threw? <==> NoMatchBetween(upstream.content, 0, |upstream.content|))
              && (out.Responded? ==> out == Responded(200, PromptList(true, Prompts(upstream.content))))
  {
    if verb != "POST" {
      return Responded(405, PromptList(false, []));
    }
    if upstream.UpstreamFailed? {
      return Responded(200, ErrorFlag);
    }
    var prompts := ParseGPTContent(upstream.content);
    if prompts.None? {
      return Threw;
    }
    out := Responded(200, PromptList(true, prompts.value));
  }

  /** `ImageResponse`; a `None` image stands for the `{}` default. */
  datatype ImageResponse<ImageT> = ImageResponse(success: bool, amount: int, image: Option<ImageT>, error: ErrorInfo)

  /**
   * `generateImageResponse(success, amount, image = {}, error = {})`: an
   * omitted image or error is the empty object, given ones are kept.
   */
  function GenerateImageResponse<ImageT>(success: bool, amount: int, image: Option<ImageT>, error: Option<ErrorInfo>): (r: ImageResponse<ImageT>)
    ensures r.success == success && r.amount == amount && r.image == image
    ensures error.None? ==> r.error == EmptyError
    ensures error.Some? ==> r.error == error.value
  {
    ImageResponse(success, amount, image, error.GetOr(EmptyError))
  }
}

=== FILE: post_hooks.dfy ===
/**
 * The post hooks of the client: small loading/success state machines. Each
 * hook's async function is split at its `await`: `Begin` runs the guards and
 * says whether a request goes out, `Finish` takes the response. State setters
 * are plain assignments.
 */
module PostHooks {
  import opened Values
  import opened Envelope
  import opened Documents

  /** `useAddPost(user_id, created, url)`. */
  class AddPostHook {
    const userId: Option<string>
    const created: Option<int>
    const url: Option<string>
    var success: bool
    var loading: bool

    constructor (userId: Option<string>, created: Option<int>, url: Option<string>)
      ensures this.userId == userId && this.created == created && this.url == url
      ensures !success && !loading
    {
      this.userId, this.created, this.url := userId, created, url;
      success, loading := false, false;
    }

    /**
     * While loading, or with an undefined argument, no request is issued and
     * `success` becomes false; otherwise loading starts and `success` keeps
     * its value until the response.
     */
    method Begin() returns (issued: bool)
      modifies this
      ensures issued <==> !old(loading) && userId.Some? && created.Some? && url.Some?
      ensures !issued ==> !success && loading == old(loading)
      ensures issued ==> loading && success == old(success)
    {
      if loading {
        success := false;
        return false;
      }
      if userId.None? || created.None? || url.None? {
        success := false;
        return false;
      }
      loading := true;
      issued := true;
    }

    /** The create-post response arrived: `success` mirrors it and loading ends. */
    method Finish(response: DbResponse)
      modifies this
      ensures success == response.success && !loading
    {
      success := response.success;
      loading := false;
    }
  }

  /** `getAllPostsFromUser`'s answer; `posts` may be missing from the JSON. */
  datatype PostsResponse = PostsResponse(success: bool, posts: Option<seq<PostDoc>>)

  /**
   * The `forEach` of `useGetAllPostIds`: every updater ignores the list it is
   * given and returns the captured list plus its own post's id, so only the
   * last post's id survives.
   */
  method ApplyIdUpdaters(current: seq<string>, captured: seq<string>, posts: seq<PostDoc>) returns (ids: seq<string>)
    ensures |posts| == 0 ==> ids == current
    ensures |posts| > 0 ==> ids == captured + [posts[|posts| - 1].id]
  {
    ids := current;
    var i := 0;
    while i < |posts|
      invariant 0 <= i <= |posts|
      invariant i == 0 ==> ids == current
      invariant i > 0 ==> ids == captured + [posts[i - 1].id]
    {
      var post := posts[i];
      ids := captured + [post.id];
      i := i + 1;
    }
  }

  /** `useGetAllPostIds(user_id)`. */
  class PostIdsHook {
    const userId: Option<string>
    var postIds: seq<string>
    var success: bool
    var loading: bool
    /** The `post_ids` value the running request's callback closed over. */
    var captured: seq<string>

    constructor (userId: Option<string>)
      ensures this.userId == userId && postIds == [] && !success && !loading
    {
      this.userId := userId;
      postIds, success, loading, captured := [], false, false, [];
    }

    /**
     * While loading, or with an undefined or empty id, `success` becomes false
     * and nothing else changes; otherwise loading starts, `success` is reset
     * and the list is cleared.
     */
    method Begin() returns (issued: bool)
      modifies this
      ensures issued <==> !old(loading) && !Falsy(userId)
      ensures !issued ==> !success && loading == old(loading) && postIds == old(postIds) && captured == old(captured)
      ensures issued ==> loading && !success && postIds == [] && captured == old(postIds)
    {
      if loading {
        success := false;
        return false;
      }
      if userId.None? || userId.value == "" {
        success := false;
        return false;
      }
      captured := postIds;
      loading := true;
      success := false;
      postIds := [];
      issued := true;
    }

    /**
     * The fetch settled (`None`: it or its JSON parse failed). An unsuccessful
     * answer, or one without `posts` (the `forEach` throws), leaves the list
     * alone with `success` false; otherwise the updaters run and `success`
     * becomes true. Loading always ends.
     */
    method Finish(response: Option<PostsResponse>)
      modifies this
      ensures !loading && captured == old(captured)
      ensures success <==> response.Some? && response.value.success && response.value.posts.Some?
      ensures !success ==> postIds == old(postIds)
      ensures success && |response.value.posts.value| == 0 ==> postIds == old(postIds)
      ensures success && |response.value.posts.value| > 0 ==>
                var posts := response.value.posts.value;
                postIds == captured + [posts[|posts| - 1].id]
    {
      if response.None? || !response.value.success || response.value.posts.None? {
        success := false;
      } else {
        postIds := ApplyIdUpdaters(postIds, captured, response.value.posts.value);
        success := true;
      }
      loading := false;
    }
  }

  /** `getPostFromUser`'s answer. */
  datatype PostResponse = PostResponse(success: bool, post: Option<PostDoc>)

  /**
   * `useGetPostForUser(user_id, post_id)`. `post` is `None` both for the
   * initial `{}` (truthy in JavaScript) and for the `undefined` (falsy) that a
   * successful response without `post` stores; the model does not tell them
   * apart.
   */
  class PostHook {
    const userId: Option<string>
    const postId: Option<string>
    var post: Option<PostDoc>
    var success: bool
    var loading: bool

    constructor (userId: Option<string>, postId: Option<string>)
      ensures this.userId == userId && this.postId == postId
      ensures post.None? && !success && !loading
    {
      this.userId, this.postId := userId, postId;
      post, success, loading := None, false, false;
    }

    /** While loading, or with an undefined or empty id, no request and `success` false. */
    method Begin() returns (issued: bool)
      modifies this
      ensures issued <==> !old(loading) && !Falsy(userId) && !Falsy(postId)
      ensures !issued ==> !success && loading == old(loading)
      ensures issued ==> loading && !success
      ensures post == old(post)
    {
      if loading {
        success := false;
        return false;
      }
      if userId.None? || postId.None? || userId.value == "" || postId.value == "" {
        success := false;
        return false;
      }
      loading := true;
      success := false;
      issued := true;
    }

    /** `success` mirrors the response; the post is replaced only on success. */
    method Finish(response: PostResponse)
      modifies this
      ensures success == response.success && !loading
      ensures post == if response.success then response.post else old(post)
    {
      success := response.success;
      if response.success {
        post := response.post;
      }
      loading := false;
    }
  }

  datatype LikeAction = Like | Unlike

  /** The request `requestLikePost` / `requestUnlikePost` sends. */
  datatype LikeRequest = LikeRequest(endpoint: string, userId: string, postId: string, ownerId: Option<string>)

  function Endpoint(action: LikeAction): string {
    match action
    case Like => "/api/database/posts/likePost"
    case Unlike => "/api/database/posts/unlikePost"
  }

  /**
   * `useLikeImage`, `useUnlikeImage` and `useUserLikesImage`: one shape,
   * differing only in the endpoint; `useUserLikesImage` unlikes.
   */
  class LikeHook {
    const userId: Option<string>
    const postId: Option<string>
    const ownerId: Option<string>
    const action: LikeAction
    var success: bool
    var loading: bool

    constructor (userId: Option<string>, postId: Option<string>, ownerId: Option<string>, action: LikeAction)
      ensures this.userId == userId && this.postId == postId && this.ownerId == ownerId && this.action == action
      ensures !success && !loading
    {
      this.userId, this.postId, this.ownerId, this.action := userId, postId, ownerId, action;
      success, loading := false, false;
    }

    /**
     * While loading, or with a falsy user or post id, `success` becomes false
     * and no request goes out; otherwise the request names the hook's ids.
     */
    method Begin() returns (request: Option<LikeRequest>)
      modifies this
      ensures request.Some? <==> !old(loading) && !Falsy(userId) && !Falsy(postId)
      ensures request.None? ==> !success && loading == old(loading)
      ensures request.Some? ==> loading && !success
      ensures request.Some? ==> request.value == LikeRequest(Endpoint(action), userId.value, postId.value, ownerId)
    {
      if loading || Falsy(userId) || Falsy(postId) {
        success := false;
        return None;
      }
      loading := true;
      success := false;
      request := Some(LikeRequest(Endpoint(action), userId.value, postId.value, ownerId));
    }

    method Finish(response: DbResponse)
      modifies this
      ensures success == response.success && !loading
    {
      success := response.success;
      loading := false;
    }
  }

  /** `useUserLikesImage` is built like `useUnlikeImage`: it sends an unlike request. */
  method UserLikesImage(userId: Option<string>, postId: Option<string>, ownerId: Option<string>) returns (hook: LikeHook)
    ensures fresh(hook) && hook.action == Unlike && !hook.loading && !hook.success
    ensures hook.userId == userId && hook.postId == postId && hook.ownerId == ownerId
  {
    hook := new LikeHook(userId, postId, ownerId, Unlike);
  }
}

=== FILE: profile_hooks.dfy ===
/**
 * The profile side of the client: the normalisation of the friends response,
 * the `pull_user` decision, and the following/followers/follow/unfollow hooks.
 * As in the post hooks, each async function is split at its `await` into
 * `Begin` and `Finish`.
 */
module ProfileHooks {
  import opened Values
  import opened Envelope
  import opened Documents

  /** `DatabaseFriendsResponse` as parsed from JSON; `{success: false}` has no `friends`. */
  datatype FriendsResponse = FriendsResponse(success: bool, friends: Option<FriendDoc>)

  function Failed(): FriendsResponse {
    FriendsResponse(false, None)
  }

  /**
   * `requestFriendsForUser`: `fetched` is the parsed JSON, `None` when the
   * fetch or the parse threw. Missing lists of a present `friends` become
   * empty; a response without `friends` makes the patching throw, and every
   * exception yields `{success: false}`.
   */
  function RequestFriendsForUser(fetched: Option<FriendsResponse>): (r: FriendsResponse)
    ensures fetched.None? || fetched.value.friends.None? ==> r == Failed()
    ensures fetched.Some? && fetched.value.friends.Some? ==>
              var f := fetched.value.friends.value;
              && r.success == fetched.value.success
              && r.friends == Some(FriendDoc(f.id, Some(f.followers.GetOr([])), Some(f.following.GetOr([]))))
    ensures r.friends.Some? ==> r.friends.value.followers.Some? && r.friends.value.following.Some?
  {
    match fetched
    case None => Failed()
    case Some(json) =>
      match json.friends
      case None => Failed()
      case Some(f) =>
        var patched := f.(followers := Some(f.followers.GetOr([])));
        var patched' := patched.(following := Some(patched.following.GetOr([])));
        json.(friends := Some(patched'))
  }

  /**
   * `requestFollowingForUser`: the `following` list of a successful response
   * that has `friends`, otherwise the empty list.
   */
  function RequestFollowingForUser(fetched: Option<FriendsResponse>): (following: seq<string>)
    ensures fetched.None? || !fetched.value.success || fetched.value.friends.None? ==> following == []
    ensures fetched.Some? && fetched.value.success && fetched.value.friends.Some? ==>
              following == fetched.value.friends.value.following.GetOr([])
  {
    var friends := RequestFriendsForUser(fetched);
    if !friends.success then []
    else if friends.friends.None? then []
    else friends.friends.value.following.value
  }

  /**
   * The state update of `useFollowers`, with its `else` bound to the inner
   * `if`: a successful response without `friends` leaves the list as it was.
   */
  function FollowersAfter(response: FriendsResponse, current: seq<string>): (next: seq<string>)
    ensures !response.success ==> next == []
    ensures response.success && response.friends.None? ==> next == current
    ensures response.success && response.friends.Some? && response.friends.value.followers.Some? ==>
              next == response.friends.value.followers.value
    ensures response.success && response.friends.Some? && response.friends.value.followers.None? ==> next == []
  {
    if response.success then
      if response.friends.Some? then
        if response.friends.value.followers.Some? then response.friends.value.followers.value
        else []
      else current
    else []
  }

  /**
   * Behind `requestFriendsForUser` the misleading `else` does no harm: the
   * list never keeps a stale value, it becomes the fetched followers of a
   * successful response and the empty list otherwise.
   */
  lemma FollowersAfterFetchIsNeverStale(fetched: Option<FriendsResponse>, current: seq<string>)
    ensures FollowersAfter(RequestFriendsForUser(fetched), current) ==
              if fetched.Some? && fetched.value.success && fetched.value.friends.Some?
              then fetched.value.friends.value.followers.GetOr([])
              else []
  {
  }

  /** `useFollowing(user_id)`: the request goes out, but `following` is never set. */
  class FollowingHook {
    const userId: Option<string>
    var following: seq<string>
    var loading: bool

    ghost predicate Valid()
      reads this
    {
      following == []
    }

    constructor (userId: Option<string>)
      ensures this.userId == userId && Valid() && !loading
    {
      this.userId := userId;
      following, loading := [], false;
    }

    /** While loading, or with an undefined id, nothing happens. */
    method Begin() returns (issued: bool)
      requires Valid()
      modifies this
      ensures Valid()
      ensures issued <==> !old(loading) && userId.Some?
      ensures loading == (old(loading) || issued)
    {
      if loading {
        return false;
      }
      if userId.None? {
        return false;
      }
      loading := true;
      issued := true;
    }

    /** The response is dropped; only loading ends. */
    method Finish(response: Option<FriendsResponse>)
      requires Valid()
      modifies this
      ensures Valid() && !loading
    {
      var dbFriendsResponse := RequestFollowingForUser(response);
      loading := false;
    }
  }

  /** `useFollowers(user_id)`. */
  class FollowersHook {
    const userId: Option<string>
    var followers: seq<string>
    var loading: bool

    constructor (userId: Option<string>)
      ensures this.userId == userId && followers == [] && !loading
    {
      this.userId := userId;
      followers, loading := [], false;
    }

    /** While loading, or with an undefined id, nothing happens. */
    method Begin() returns (issued: bool)
      modifies this
      ensures issued <==> !old(loading) && userId.Some?
      ensures loading == (old(loading) || issued) && followers == old(followers)
    {
      if loading {
        return false;
      }
      if userId.None? {
        return false;
      }
      loading := true;
      issued := true;
    }

    /** `response` is what `requestFriendsForUser` returned. */
    method Finish(response: FriendsResponse)
      modifies this
      ensures followers == FollowersAfter(response, old(followers)) && !loading
    {
      if response.success {
        if response.friends.Some? {
          if response.friends.value.followers.Some? {
            followers := response.friends.value.followers.value;
          } else {
            followers := [];
          }
        }
      } else {
        followers := [];
      }
      loading := false;
    }
  }

  datatype FollowAction = Follow | Unfollow

  /** The body `requestFollowUser` / `requestUnfollowUser` posts. */
  datatype FollowRequest = FollowRequest(endpoint: string, id: string, friendId: string)

  function FollowEndpoint(action: FollowAction): string {
    match action
    case Follow => "/api/database/profile/followUser"
    case Unfollow => "/api/database/profile/unfollowUser"
  }

  /** `useFollowUser` and `useUnfollowUser`: one shape, two endpoints. */
  class FollowHook {
    const userId: string
    const friendId: string
    const action: FollowAction
    var success: bool
    var loading: bool

    constructor (userId: string, friendId: string, action: FollowAction)
      ensures this.userId == userId && this.friendId == friendId && this.action == action
      ensures !success && !loading
    {
      this.userId, this.friendId, this.action := userId, friendId, action;
      success, loading := false, false;
    }

    /**
     * While loading nothing changes and no request goes out; otherwise
     * `success` is false for the duration of the request.
     */
    method Begin() returns (request: Option<FollowRequest>)
      modifies this
      ensures request.Some? <==> !old(loading)
      ensures request.None? ==> success == old(success) && loading == old(loading)
      ensures request.Some? ==> loading && !success
      ensures request.Some? ==> request.value == FollowRequest(FollowEndpoint(action), userId, friendId)
    {
      if loading {
        return None;
      }
      loading := true;
      success := false;
      request := Some(FollowRequest(FollowEndpoint(action), userId, friendId));
    }

    /** `success` mirrors the response (`{success: false}` on a transport error); loading ends. */
    method Finish(response: DbResponse)
      modifies this
      ensures success == response.success && !loading
    {
      success := response.success;
      loading := false;
    }
  }

  /** `DatabaseUserResponse` as parsed; `error` is missing, or an object (truthy even when `{}`). */
  datatype UserResponse = UserResponse(success: bool, user: User, error: Option<ErrorInfo>)

  /**
   * `pull_user`: the response's user is returned only when its `error` field
   * is present; a missing `error` or a failed fetch (`None`) gives the empty
   * user.
   */
  function PullUser(fetched: Option<UserResponse>): (user: User)
    ensures user != EmptyUser ==> fetched.Some? && fetched.value.error.Some? && user == fetched.value.user
    ensures fetched.Some? && fetched.value.error.Some? ==> user == fetched.value.user
    ensures fetched.None? || fetched.value.error.None? ==> user == EmptyUser
  {
    match fetched
    case None => EmptyUser
    case Some(json) => if json.error.Some? then json.user else EmptyUser
  }

  /**
   * The `success` flag plays no part in `pull_user`: a successful answer whose
   * `error` is missing yields the empty user, while a failed one carrying an
   * error object yields whatever user it carries.
   */
  lemma PullUserIgnoresSuccess(user: User, error: Option<ErrorInfo>)
    ensures PullUser(Some(UserResponse(true, user, error))) == PullUser(Some(UserResponse(false, user, error)))
    ensures PullUser(Some(UserResponse(true, user, None))) == EmptyUser
  {
  }
}

=== FILE: user_likes_post.dfy ===
/**
 * The `userLikesPost` handler: a read-only query that answers, in the
 * envelope's `success` field, whether the signed-in user is among a post's
 * likers.
 */
module UserLikes {
  import opened Values
  import opened Envelope
  import opened Documents
  import opened AddPost

  function MissingIds(): Reply {
    Reply(418, DbResponse(false, GenerateError(418, "No user id or post id", None, None)))
  }

  function NoSuchPost(): Reply {
    Reply(418, DbResponse(false, GenerateError(418, "Post does not exist", None, None)))
  }

  /** The likers of a post; a post stored without `likes` has none. */
  function Likes(post: PostDoc): seq<string> {
    post.likes.GetOr([])
  }

  /**
   * `userLikesPost(req, res)` with `req.body.user_id == userId` (the post's
   * owner), `req.body.post_id == postId` (its date key) and `sessionId` the
   * id of the signed-in user. The store is only read.
   */
  function UserLikesPost(posts: PostsTable, verb: string, userId: Option<string>, postId: Option<string>, sessionId: string): (r: Reply)
    ensures verb != "POST" ==> r == MethodNotAllowed()
    ensures verb == "POST" && (Falsy(userId) || Falsy(postId)) ==>
              r.status == 418 && !r.body.success && r.body.error == ErrorInfo(418, "No user id or post id", "", "")
    ensures verb == "POST" && !Falsy(userId) && !Falsy(postId) && (userId.value, postId.value) !in posts ==>
              r.status == 418 && !r.body.success && r.body.error == ErrorInfo(418, "Post does not exist", "", "")
    ensures r.body.success <==>
              verb == "POST" && !Falsy(userId) && !Falsy(postId) && (userId.value, postId.value) in posts
              && sessionId in Likes(posts[(userId.value, postId.value)])
    ensures verb == "POST" && !Falsy(userId) && !Falsy(postId) && (userId.value, postId.value) in posts ==>
              r.status == 200 && r.body.error == EmptyError
    ensures r.status == 200 ==> r.body.error == EmptyError
  {
    if verb != "POST" then MethodNotAllowed()
    else if Falsy(userId) || Falsy(postId) then MissingIds()
    else
      var key := (userId.value, postId.value);
      if key !in posts then NoSuchPost()
      else Answer(sessionId in Likes(posts[key]))
  }

  /**
   * The body's `user_id` only chooses whose post is read: two signed-in users
   * asking about the same post get answers that differ only through their
   * own membership in its likes.
   */
  lemma AnswerDependsOnlyOnSession(posts: PostsTable, owner: string, dateKey: string, s1: string, s2: string)
    requires owner != "" && dateKey != "" && (owner, dateKey) in posts
    requires s1 in Likes(posts[(owner, dateKey)]) <==> s2 in Likes(posts[(owner, dateKey)])
    ensures UserLikesPost(posts, "POST", Some(owner), Some(dateKey), s1) == UserLikesPost(posts, "POST", Some(owner), Some(dateKey), s2)
  {
  }

  /**
   * Reading back a post just written by `addPost`: it exists, and the answer
   * is membership in the body's likes, so a body without `likes` is liked by
   * nobody.
   */
  lemma LikesAfterUpsert(posts: PostsTable, body: PostDoc, sessionId: string)
    requires body.userId != "" && body.creationDate != ""
    ensures var r := UserLikesPost(Upsert(posts, body), "POST", Some(body.userId), Some(body.creationDate), sessionId);
      r.status == 200 && (r.body.success <==> body.likes.Some? && sessionId in body.likes.value)
  {
  }
}

=== FILE: values.dfy ===
/** JSON-ish values shared by the handlers and hooks. */
module Values {

  /** A field that may be absent (`undefined`) in a JSON object. */
  datatype Option<+T> = None | Some(value: T) {
    function GetOr(default: T): T {
      match this
      case Some(v) => v
      case None => default
    }
  }

  /** An ASCII decimal digit: what `\d` matches and what `String(n)` writes. */
  predicate IsDigit(c: char) {
    '0' <= c <= '9'
  }

  /** JavaScript truthiness of an optional string field: `undefined` and `''` are falsy. */
  predicate Falsy(v: Option<string>) {
    v.None? || v.value == ""
  }
}
